=== FILE: README.md ===
# SimpleZXing frame-decode path, modelled in Dafny

SimpleZXing is an Android barcode-scanning activity built on ZXing. This
project models the part of it that decides what happens to a camera preview
frame, and proves properties of that model:

- **`DecodeHandler`** (decode worker). `decode` rotates a portrait frame's
  luminance plane with a nested loop. It then asks the ZXing reader for a
  result, resets the reader, and reports exactly one `decode_succeeded` or
  `decode_failed` message to the activity. `handleMessage` is a two-state
  machine: running, then quit.
- **`PreviewCallback`** (camera callback). `setHandler` registers a handler.
  `onPreviewFrame` forwards one frame to it, packing the camera resolution
  by the screen's aspect, and then forgets the registration.
- **`CaptureActivity`**. Its `MyOrientationDetector` buckets sensor angles
  and asks for a restart on a 90/270 flip. `bundleSetting` reads the
  caller's options with a default per key and maps the orientation mode to
  a requested screen orientation. `onResume` enables the detector only in
  automatic mode.

Layout:

| file | module | contents |
|---|---|---|
| common.dfy | `Common` | Java's signed `byte`, `Option` |
| rotation.dfy | `Rotation` | the rotation loop, its reference definition, and the portrait guard |
| decode_handler.dfy | `DecodeHandler` | `decode` outcome dispatch and the `handleMessage` state machine |
| preview_callback.dfy | `PreviewCallback` | one-shot registration and dimension packing |
| orientation_detector.dfy | `OrientationDetector` | `setLastOrientation`, `onOrientationChanged` |
| settings.dfy | `Settings` | `bundleSetting` defaults and mode mapping, the `onResume` detector gate |
| pipeline.dfy | `Pipeline` | how a forwarded frame is treated by `decode` |

How collaborators are modelled:

- The external collaborators (ZXing's reader, the camera manager, the activity's handler) become parameters. `DecodeHandler.Env` carries:
  - `buildLuminanceSource` as a function returning an optional source;
  - the reader's `decodeWithState` as a function returning an optional result, where None stands for a thrown `ReaderException`;
  - whether the activity's handler is non-null.
- Side effects become values. The effects of one message are a list:
  building the source, a reader attempt, a reader reset, a sent reply, a
  looper quit, or a crash.
- Frame data is a `seq<byte>` over a `byte` newtype in [-128, 128).
- The camera and screen resolutions are `Point` values, the camera's optional.

The rotation indexes `data` out of bounds when a portrait frame is shorter
than width*height. In Java that throws `ArrayIndexOutOfBoundsException`,
which nothing catches. The model makes this explicit:

- `RotateLoop` returns None exactly then;
- `DecodeFrame` then produces a `Crash` effect;
- the worker's looper stops dispatching afterwards.

The frame is an immutable sequence, so `decode` cannot write to its input.
The rotated buffer is always a new value of the same length.

## Model

| member | source | states |
|---|---|---|
| Rotation.RotateLoop | simplezxing/src/main/java/com/acker/simplezxing/decode/DecodeHandler.java:80-85 | The nested loop finishes without an index fault exactly when the frame holds width*height bytes (0 when a side is not positive). It then yields a new buffer of the input's length where rotated[y*width + width-x-1] == data[y + x*height] for every pixel, with both indices inside [0, width*height). Every byte at or beyond width*height is zero. The buffer equals the independent reference `Rotated`. |
| Rotation.RotatedMapsPixels | simplezxing/src/main/java/com/acker/simplezxing/decode/DecodeHandler.java:80-83 | The reference rotation keeps the input's length, sends every source pixel (x, y) to the mirrored destination index, and leaves the chroma tail beyond width*height zero. |
| Rotation.IndexBounds | simplezxing/src/main/java/com/acker/simplezxing/decode/DecodeHandler.java:83 | For 0 <= x < width and 0 <= y < height, both the destination index and the source index lie in [0, width*height). |
| Rotation.DestinationBijection | simplezxing/src/main/java/com/acker/simplezxing/decode/DecodeHandler.java:81-83 | Each destination index in [0, width*height) is written by exactly one loop iteration (x, y). Indices outside that range are written by none. |
| Rotation.SourceBijection | simplezxing/src/main/java/com/acker/simplezxing/decode/DecodeHandler.java:81-83 | Each source index in [0, width*height) is read by exactly one loop iteration (x, y). Indices outside that range are read by none. |
| Rotation.NormalizeGuard | simplezxing/src/main/java/com/acker/simplezxing/decode/DecodeHandler.java:78-86 | Rotation happens only when width < height (strict). A landscape or square frame is passed on unchanged. A portrait frame becomes the rotated buffer, or faults exactly when it is shorter than width*height. |
| Rotation.SquareFrameExample | simplezxing/src/main/java/com/acker/simplezxing/decode/DecodeHandler.java:78-83 | The loop body alone turns the 3x3 frame [1..9] into [7,4,1,8,5,2,9,6,3]. `decode` does not rotate that square frame at all. |
| DecodeHandler.DecodeFrame | simplezxing/src/main/java/com/acker/simplezxing/decode/DecodeHandler.java:76-114 | `decode` crashes exactly when the portrait rotation faults. Otherwise the luminance source is built from the (rotated) frame. The reader makes one attempt iff a source was built, never more, it reads that source, and it is reset right after and at no other time. The looper is never quit. At most one reply is sent, always last, and exactly one when the activity handler exists. `decode_succeeded(r)` is sent iff a source was built and the reader returned r. `decode_failed` is sent iff the source was null or the reader threw a `ReaderException`. Nothing is sent without a handler. |
| DecodeHandler.DecodeOriented | simplezxing/src/main/java/com/acker/simplezxing/decode/DecodeHandler.java:87-113 | For an already oriented frame, the source is built first. The reader makes one attempt iff a source was built, never more, and it reads exactly that source. The reader is reset right after the attempt, and at no other time. The looper is never quit. Exactly one reply is sent when the activity handler exists, and none otherwise. It is `decode_succeeded(r)` iff the reader returned r, and `decode_failed` iff the source was null or the reader threw a `ReaderException`. |
| DecodeHandler.HandleMessage | simplezxing/src/main/java/com/acker/simplezxing/decode/DecodeHandler.java:54-66 | A stopped handler ignores every message. Quit clears `running` and quits the looper. An unknown code changes nothing and does nothing. A decode request has exactly the effects of `decode` (`DecodeFrame`) on its frame, width and height; it keeps the handler running, and the looper stops only if decode crashed. A handler that is not running afterwards sent nothing. |
| DecodeHandler.StoppedStaysStopped | simplezxing/src/main/java/com/acker/simplezxing/decode/DecodeHandler.java:55-57 | Once the handler is not running or its looper has stopped, any further messages leave the state unchanged and produce no effects. |
| DecodeHandler.QuitIsFinal | simplezxing/src/main/java/com/acker/simplezxing/decode/DecodeHandler.java:61-63 | After a quit message the handler is stopped. Every later message, decode or quit, is ignored: the effects are exactly those up to the quit. |
| DecodeHandler.OneReplyPerDecode | simplezxing/src/main/java/com/acker/simplezxing/decode/DecodeHandler.java:99-113 | With the activity handler present and no faulting frame before the first quit, a running handler sends exactly as many replies as there are decode requests before the first quit. Messages after the quit may be anything. |
| DecodeHandler.SilentWithoutActivityHandler | simplezxing/src/main/java/com/acker/simplezxing/decode/DecodeHandler.java:104-111 | With a null activity handler, no message sequence ever sends a reply. |
| DecodeHandler.ReaderAlwaysReset | simplezxing/src/main/java/com/acker/simplezxing/decode/DecodeHandler.java:89-97 | Over any message sequence, every reader attempt is immediately followed by a reader reset, whether it succeeded or threw. |
| PreviewCallback.SetHandler | simplezxing/src/main/java/com/acker/simplezxing/camera/PreviewCallback.java:41-44 | After registration the callback holds exactly the given handler and message code, whatever it held before. |
| PreviewCallback.LatestRegistrationWins | simplezxing/src/main/java/com/acker/simplezxing/camera/PreviewCallback.java:41-44 | Registering twice does not keep the first handler. The next frame goes to the second handler with the second message code. |
| PreviewCallback.OnPreviewFrame | simplezxing/src/main/java/com/acker/simplezxing/camera/PreviewCallback.java:47-66 | A frame is forwarded iff the camera resolution is known and a handler is registered; otherwise the state is unchanged. A forwarded message goes to the registered handler with its code and the frame unchanged, and the registration is cleared. A portrait screen sends (camera.y, camera.x). Any other screen, square included, sends (camera.x, camera.y). The two arguments are a permutation of the resolution, so their product is preserved. |
| PreviewCallback.FeedUnregistered | simplezxing/src/main/java/com/acker/simplezxing/camera/PreviewCallback.java:48-66 | Without a registered handler or a camera resolution, any number of frames is dropped and the state never changes. |
| PreviewCallback.OneMessagePerRegistration | simplezxing/src/main/java/com/acker/simplezxing/camera/PreviewCallback.java:49-63 | After one registration, any number of frames produce at most one message. There is exactly one iff the resolution is known and a frame arrives; it carries the first frame and the registration is used up. |
| PreviewCallback.AtMostOneMessagePerRegistration | simplezxing/src/main/java/com/acker/simplezxing/camera/PreviewCallback.java:41-63 | Whatever the interleaving of registrations and frames: messages sent plus a registration still pending never exceed the registrations made plus one pending at the start. |
| PreviewCallback.MessagesFromFresh | simplezxing/src/main/java/com/acker/simplezxing/camera/PreviewCallback.java:37-63 | A newly constructed callback, which has no handler, sends no more messages than the non-null registrations made, over any interleaving of registrations and frames. |
| OrientationDetector.OrientationForRotation | simplezxing/src/main/java/com/acker/simplezxing/activity/CaptureActivity.java:314-325 | `setLastOrientation` maps display rotation ROTATION_90 to 270 and ROTATION_270 to 90 (inverted), and every other value to -1. |
| OrientationDetector.Bucket | simplezxing/src/main/java/com/acker/simplezxing/activity/CaptureActivity.java:330-336 | An angle strictly inside (45,135) is 90. One strictly inside (225,315) is 270. Everything else, the boundary angles included, is -1. |
| OrientationDetector.OnOrientationChanged | simplezxing/src/main/java/com/acker/simplezxing/activity/CaptureActivity.java:328-343 | A restart fires iff the bucket is 90 with last 270, or 270 with last 90. Only then does the remembered orientation change: it becomes the new bucket, the opposite of the old one. Otherwise the detector is unchanged, and it stays in {-1, 90, 270}. |
| OrientationDetector.TrackKeepsBucket | simplezxing/src/main/java/com/acker/simplezxing/activity/CaptureActivity.java:308-342 | Over any sequence of angles, `lastOrientation` stays in {-1, 90, 270}. |
| OrientationDetector.UnknownIsAbsorbing | simplezxing/src/main/java/com/acker/simplezxing/activity/CaptureActivity.java:337-342 | A detector at -1 stays at -1 and never fires a restart, whatever angles arrive. |
| OrientationDetector.RestartsAlternate | simplezxing/src/main/java/com/acker/simplezxing/activity/CaptureActivity.java:337-342 | Every restart flips the remembered orientation. After an even number of restarts it is back where it started; after an odd number it is the opposite orientation. |
| OrientationDetector.RestartNeedsLandscapeStart | simplezxing/src/main/java/com/acker/simplezxing/activity/CaptureActivity.java:314-342 | Orientation events can lead to a restart only if the display started at rotation 90 or 270. |
| Settings.RequestedFor | simplezxing/src/main/java/com/acker/simplezxing/activity/CaptureActivity.java:151-161 | Orientation mode 1 requests landscape and 0 requests portrait. Every other byte requests sensor orientation. |
| Settings.BundleSetting | simplezxing/src/main/java/com/acker/simplezxing/activity/CaptureActivity.java:140-166 | A setting whose key holds a value of its type takes that value. Every other setting takes its entry in the `Defaults` constant, and a null bundle reads like an empty one. The requested orientation follows the orientation mode. An ambient-light manager is created iff the flashlight mode is 2 (AUTO). |
| Settings.BundleRoundTrip | simplezxing/src/main/java/com/acker/simplezxing/activity/CaptureActivity.java:59-150 | A bundle holding all seven settings under their keys reads back as exactly those settings, so the seven key strings are distinct and none shadows another. The requested orientation and the ambient-light decision follow the stored modes. |
| Settings.OnlyKeysMatter | simplezxing/src/main/java/com/acker/simplezxing/activity/CaptureActivity.java:140-150 | Two bundles that agree on the seven keys give the same settings, requested orientation and ambient-light decision. Entries under any other key change nothing. |
| Settings.DefaultsWhenMissing | simplezxing/src/main/java/com/acker/simplezxing/activity/CaptureActivity.java:140-150 | With no bundle, or none of the keys, the result is flashlight 0, portrait, beep on, vibration on, exposure off, full-screen off, hint text off. Portrait is requested, there is no ambient-light manager, and the detector stays disabled. |
| Settings.AutoModeUsesSensor | simplezxing/src/main/java/com/acker/simplezxing/activity/CaptureActivity.java:151-175 | Automatic orientation mode both enables the detector in `onResume` and requests sensor orientation. Mode 1 requests landscape and mode 0 portrait, both with the detector off. Any mode outside 0-2 requests sensor orientation but leaves the detector off. |
| Pipeline.PortraitScreenRotates | simplezxing/src/main/java/com/acker/simplezxing/camera/PreviewCallback.java:53-61 | A portrait screen with a landscape camera resolution yields arg1 < arg2, which is exactly the case `decode` rotates. With a landscape camera resolution, a landscape or square screen's frame is passed through unrotated. |
| Pipeline.ForwardedFrameGetsOneReply | simplezxing/src/main/java/com/acker/simplezxing/decode/DecodeHandler.java:78-113 | A frame forwarded under the decode code and holding at least camera.x*camera.y bytes never makes the rotation fault. Decoding it sends the activity exactly one reply. |
| Pipeline.OtherCodeGetsNoReply | simplezxing/src/main/java/com/acker/simplezxing/decode/DecodeHandler.java:53-65 | A frame forwarded under any other code is never decoded and gets no reply. The quit code stops a running handler. Any other code leaves the handler unchanged and does nothing. |

## Left out

- BeepManager, ViewUtil and DecodeThread are not part of this model:
  - BeepManager is device side effects behind two flags;
  - ViewUtil is float conversion in an Android library;
  - DecodeThread is thread start-up with a latch handoff.
- The ZXing decode itself is the opaque `Env` parameter:
  - `MultiFormatReader`, `HybridBinarizer`, `BinaryBitmap`, `buildLuminanceSource`;
  - the reader's internal state beyond the fact that it is reset;
  - decode hints.
- Timing: `System.currentTimeMillis` in `decode` only feeds a commented-out log line.
- The `CaptureActivity` lifecycle and UI are not modelled:
  - `onCreate`, the rest of `onResume`, `onPause`, camera initialisation, window setup;
  - `handleDecode`, `returnResult`;
  - the body of `restartActivity` (pause, sleep, resume), which is represented only as the restart flag.
- Which side re-registers the preview callback after a reply is not modelled. That controller is not part of this model.
- Concurrency: `onPreviewFrame` reads the handler into a local and clears the field later, with no lock. The model is sequential and does not claim an atomic read-and-clear.
- Rotation.RotateLoop: Java's 32-bit wrap-around of `y*width` and `x*height` is not modelled, because the index arithmetic is on unbounded integers. Only frames whose width*height fits in an `int` match the source.
- Rotation.RotateLoop: a null `data` array is not modelled; the camera's buffer is assumed non-null, since the preview callback forwards `data` without checking it.
- PreviewCallback.OnPreviewFrame: a null screen resolution is not modelled, because the source dereferences it unguarded once the camera resolution is known.
- DecodeHandler.DecodeOriented: only a `ReaderException` from the reader is modelled. Any other exception from the reader escapes `decode` after the reader reset. An exception from `buildLuminanceSource` or from the `HybridBinarizer` and `BinaryBitmap` constructors escapes before any reader call and without a reset. Either way no reply is sent and the decode thread ends. The collaborators are modelled as total functions, so these paths are not represented.
- PreviewCallback.Feed: the camera resolution and the screen size are fixed for a whole frame sequence, because the camera manager's reconfiguration is not modelled. PreviewCallback.Replay holds them fixed in the same way.
- DecodeHandler.Run: whether the activity handler is null, and what the camera manager and reader return, are fixed for a whole message sequence, because the activity's lifecycle that changes them is not modelled.
- Three behaviours a reader might expect are absent from the code, so the model does not have them either:
  - `setHandler` overwrites a pending registration rather than ignoring the new one (`LatestRegistrationWins`);
  - `onPreviewFrame` does not inspect or drop malformed frames;
  - its read-and-clear of the handler is not atomic.

=== FILE: common.dfy ===
/** Types shared by every part of the frame-decode model. */
module Common {

  /** Java's signed 8-bit `byte`; a freshly allocated Java byte array holds zeros. */
  newtype byte = b: int | -128 <= b < 128

  /** A Java reference that may be null. */
  datatype Option<+T> = None | Some(value: T)
}

=== FILE: decode_handler.dfy ===
/**
  The decode worker's message handler (`DecodeHandler`): a two-state machine
  (running, then quit) that, for each decode request, normalises the frame,
  asks the barcode reader for a result, resets the reader, and reports exactly
  one `decode_succeeded` or `decode_failed` message to the activity's handler.
 */
module DecodeHandler {
  import opened Common
  import Rotation

  /** A recognised barcode (ZXing's `Result`); only its text is carried. */
  datatype ScanResult = ScanResult(text: string)

  /** Opaque handle for the luminance source built by the camera manager. */
  datatype LuminanceSource = LuminanceSource(id: nat)

  /**
    The external collaborators of `decode`: `buildSource` is the camera
    manager's `buildLuminanceSource` (None is null), `read` is ZXing's
    `MultiFormatReader.decodeWithState` over the binarised source (None is a
    thrown ReaderException), and `activityHandlerPresent` is whether the
    activity's handler (`CaptureActivity.getHandler()`) is non-null.
   */
  datatype Env = Env(
    buildSource: (seq<byte>, int, int) -> Option<LuminanceSource>,
    read: LuminanceSource -> Option<ScanResult>,
    activityHandlerPresent: bool)

  /** The message sent back to the activity. */
  datatype Reply = DecodeSucceeded(result: ScanResult) | DecodeFailed

  /** Observable steps of one handled message, in order. */
  datatype Effect =
    | BuildSource(pixels: seq<byte>, width: int, height: int)
    | ReaderDecode(source: LuminanceSource)
    | ReaderReset
    | Send(reply: Reply)
    | LooperQuit
    | Crash

  /** The messages the handler dispatches on (`R.id.decode`, `R.id.quit`, anything else). */
  datatype Message = Decode(data: seq<byte>, width: int, height: int) | Quit | Unknown(what: int)

  /**
    `running` is the handler's field; `looping` is whether its looper still
    dispatches messages (false after `Looper.quit()` or an uncaught exception).
   */
  datatype Worker = Worker(running: bool, looping: bool)

  /** A freshly constructed handler on a live looper. */
  const Initial := Worker(true, true)

  /** Number of messages sent to the activity. */
  function SendCount(effects: seq<Effect>): nat {
    if |effects| == 0 then 0
    else (if effects[0].Send? then 1 else 0) + SendCount(effects[1..])
  }

  lemma SendCountAppend(a: seq<Effect>, b: seq<Effect>)
    ensures SendCount(a + b) == SendCount(a) + SendCount(b)
  {
    if |a| == 0 {
      assert a + b == b;
    } else {
      assert (a + b)[1..] == a[1..] + b;
      SendCountAppend(a[1..], b);
    }
  }

  lemma SendCountOne(e: Effect)
    ensures SendCount([e]) == if e.Send? then 1 else 0
  {
    assert [e][1..] == [];
  }

  lemma SendCountNone(effects: seq<Effect>)
    requires forall e :: e in effects ==> !e.Send?
    ensures SendCount(effects) == 0
  {
    if |effects| > 0 {
      assert effects[0] in effects;
      SendCountNone(effects[1..]);
    }
  }

  /** Every reader attempt is immediately followed by a reader reset. */
  predicate ResetFollowsAttempt(effects: seq<Effect>) {
    forall i :: 0 <= i < |effects| && effects[i].ReaderDecode? ==>
      i + 1 < |effects| && effects[i + 1] == ReaderReset
  }

  /** The reader is tried at most once, and every reset directly follows that attempt. */
  predicate TriedOnce(effects: seq<Effect>) {
    (forall i, j :: (0 <= i < |effects| && 0 <= j < |effects| &&
                     effects[i].ReaderDecode? && effects[j].ReaderDecode?) ==> i == j) &&
    (forall i :: 0 <= i < |effects| && effects[i] == ReaderReset ==> 0 < i && effects[i - 1].ReaderDecode?)
  }

  /** The effect list of an oriented decode: the build, at most one attempt with its reset, at most one reply. */
  lemma AttemptShape(build: Effect, attempt: seq<Effect>, report: seq<Effect>)
    requires build.BuildSource?
    requires attempt == [] || (|attempt| == 2 && attempt[0].ReaderDecode? && attempt[1] == ReaderReset)
    requires report == [] || (|report| == 1 && report[0].Send?)
    ensures TriedOnce([build] + attempt + report)
    ensures ResetFollowsAttempt([build] + attempt + report)
    ensures LooperQuit !in [build] + attempt + report
  {
    var e := [build] + attempt + report;
    assert forall i :: 0 <= i < |e| && e[i].ReaderDecode? ==> i == 1;
    assert forall i :: 0 <= i < |e| && e[i] == ReaderReset ==> i == 2;
  }

  /**
    The part of `decode` after the frame is oriented: build the luminance
    source, try the reader and reset it, then report the outcome if the
    activity handler exists.
   */
  function DecodeOriented(env: Env, frame: seq<byte>, width: int, height: int): (effects: seq<Effect>)
    ensures |effects| >= 1 && effects[0] == BuildSource(frame, width, height) && Crash !in effects
    ensures SendCount(effects) == (if env.activityHandlerPresent then 1 else 0)
    ensures forall i :: 0 <= i < |effects| && effects[i].Send? ==> i == |effects| - 1
    ensures ResetFollowsAttempt(effects)
    ensures ReaderReset in effects <==> env.buildSource(frame, width, height).Some?
    ensures (exists i :: 0 <= i < |effects| && effects[i].ReaderDecode?) <==> env.buildSource(frame, width, height).Some?
    ensures forall e :: e in effects && e.ReaderDecode? ==> e.source == env.buildSource(frame, width, height).value
    ensures TriedOnce(effects)
    ensures LooperQuit !in effects
    ensures forall r :: Send(DecodeSucceeded(r)) in effects <==>
      env.activityHandlerPresent && env.buildSource(frame, width, height).Some? &&
      env.read(env.buildSource(frame, width, height).value) == Some(r)
    ensures Send(DecodeFailed) in effects <==>
      env.activityHandlerPresent &&
      (env.buildSource(frame, width, height).None? || env.read(env.buildSource(frame, width, height).value).None?)
  {
    var source := env.buildSource(frame, width, height);
    var raw := if source.Some? then env.read(source.value) else None;
    var attempt := if source.Some? then [ReaderDecode(source.value), ReaderReset] else [];
    var reply := if raw.Some? then DecodeSucceeded(raw.value) else DecodeFailed;
    var report := if env.activityHandlerPresent then [Send(reply)] else [];
    SendCountAppend([BuildSource(frame, width, height)] + attempt, report);
    SendCountAppend([BuildSource(frame, width, height)], attempt);
    SendCountNone([BuildSource(frame, width, height)]);
    SendCountNone(attempt);
    SendCountOne(Send(reply));
    AttemptShape(BuildSource(frame, width, height), attempt, report);
    [BuildSource(frame, width, height)] + attempt + report
  }

  /**
    `DecodeHandler.decode`: orient the frame, then decode it; an
    out-of-bounds rotation ends the call with an uncaught exception.
   */
  function DecodeFrame(env: Env, data: seq<byte>, width: int, height: int): (effects: seq<Effect>)
    ensures effects == [Crash] <==> width < height && Rotation.Area(width, height) > |data|
    ensures Crash in effects <==> Rotation.Normalize(data, width, height).None?
    ensures Rotation.Normalize(data, width, height).Some? ==>
      |effects| >= 1 && effects[0] == BuildSource(Rotation.Normalize(data, width, height).value, width, height)
    ensures width >= height ==> effects[0] == BuildSource(data, width, height)
    ensures SendCount(effects) == (if Rotation.Normalize(data, width, height).Some? && env.activityHandlerPresent then 1 else 0)
    ensures forall i :: 0 <= i < |effects| && effects[i].Send? ==> i == |effects| - 1
    ensures ResetFollowsAttempt(effects)
    ensures ReaderReset in effects <==>
      Rotation.Normalize(data, width, height).Some? && env.buildSource(Rotation.Normalize(data, width, height).value, width, height).Some?
    ensures (exists i :: 0 <= i < |effects| && effects[i].ReaderDecode?) <==>
      Rotation.Normalize(data, width, height).Some? && env.buildSource(Rotation.Normalize(data, width, height).value, width, height).Some?
    ensures forall e :: e in effects && e.ReaderDecode? ==>
      e.source == env.buildSource(Rotation.Normalize(data, width, height).value, width, height).value
    ensures TriedOnce(effects)
    ensures LooperQuit !in effects
    ensures forall r :: Send(DecodeSucceeded(r)) in effects <==>
      env.activityHandlerPresent && Rotation.Normalize(data, width, height).Some? &&
      env.buildSource(Rotation.Normalize(data, width, height).value, width, height).Some? &&
      env.read(env.buildSource(Rotation.Normalize(data, width, height).value, width, height).value) == Some(r)
    ensures Send(DecodeFailed) in effects <==>
      env.activityHandlerPresent && Rotation.Normalize(data, width, height).Some? &&
      (env.buildSource(Rotation.Normalize(data, width, height).value, width, height).None? ||
       env.read(env.buildSource(Rotation.Normalize(data, width, height).value, width, height).value).None?)
  {
    Rotation.NormalizeGuard(data, width, height);
    SendCountOne(Crash);
    match Rotation.Normalize(data, width, height)
    case None => [Crash]
    case Some(frame) => DecodeOriented(env, frame, width, height)
  }

  /**
    `DecodeHandler.handleMessage`: ignored once not running; a decode request
    runs `DecodeFrame` (an out-of-bounds rotation escapes as an uncaught
    exception and stops the looper); quit clears `running` and quits the
    looper; any other message code does nothing.
   */
  function HandleMessage(env: Env, worker: Worker, msg: Message): (r: (Worker, seq<Effect>))
    ensures !worker.running ==> r == (worker, [])
    ensures worker.running && msg.Quit? ==> r == (Worker(false, false), [LooperQuit])
    ensures worker.running && msg.Unknown? ==> r == (worker, [])
    ensures worker.running && msg.Decode? ==>
      r.1 == DecodeFrame(env, msg.data, msg.width, msg.height) &&
      r.0.running && (r.0.looping <==> worker.looping && Crash !in r.1)
    ensures !r.0.running ==> SendCount(r.1) == 0
  {
    if !worker.running then (worker, [])
    else
      match msg
      case Decode(data, width, height) =>
        var effects := DecodeFrame(env, data, width, height);
        (if Crash in effects then worker.(looping := false) else worker, effects)
      case Quit =>
        SendCountOne(LooperQuit);
        (Worker(false, false), [LooperQuit])
      case Unknown(_) => (worker, [])
  }

  /** The looper hands a message to the handler only while it is still looping. */
  function Dispatch(env: Env, worker: Worker, msg: Message): (Worker, seq<Effect>) {
    if worker.looping then HandleMessage(env, worker, msg) else (worker, [])
  }

  /** How one message changes a handler and what it does. */
  type Step = (Worker, Message) -> (Worker, seq<Effect>)

  /** The looper of a decode thread whose collaborators are `env`. */
  function Looper(env: Env): Step {
    (w, m) => Dispatch(env, w, m)
  }

  /** Feeds `msgs` in order through `step`; returns the final state and all effects. */
  function Fold(step: Step, worker: Worker, msgs: seq<Message>): (Worker, seq<Effect>)
    decreases |msgs|
  {
    if |msgs| == 0 then (worker, [])
    else
      var first := step(worker, msgs[0]);
      var tail := Fold(step, first.0, msgs[1..]);
      (tail.0, first.1 + tail.1)
  }

  /** The handler's state and all effects after the looper has processed `msgs` in order. */
  function Run(env: Env, worker: Worker, msgs: seq<Message>): (Worker, seq<Effect>) {
    Fold(Looper(env), worker, msgs)
  }

  /** A frame `decode` can rotate without indexing out of bounds. */
  predicate WellFormed(msg: Message) {
    msg.Decode? ==> Rotation.Normalize(msg.data, msg.width, msg.height).Some?
  }

  /** Every message before the first quit is well formed; later ones are never dispatched. */
  predicate WellFormedBeforeQuit(msgs: seq<Message>)
    decreases |msgs|
  {
    |msgs| == 0 || msgs[0].Quit? || (WellFormed(msgs[0]) && WellFormedBeforeQuit(msgs[1..]))
  }

  /** Decode requests that precede the first quit. */
  function DecodesBeforeQuit(msgs: seq<Message>): nat
    decreases |msgs|
  {
    if |msgs| == 0 || msgs[0].Quit? then 0
    else (if msgs[0].Decode? then 1 else 0) + DecodesBeforeQuit(msgs[1..])
  }

  /** A handler that stopped (quit or looper gone) never acts again. */
  lemma {:induction false} StoppedStaysStopped(env: Env, worker: Worker, msgs: seq<Message>)
    requires !worker.running || !worker.looping
    ensures Run(env, worker, msgs).0 == worker && Run(env, worker, msgs).1 == []
    decreases |msgs|
  {
    if |msgs| > 0 {
      assert Dispatch(env, worker, msgs[0]) == (worker, []);
      StoppedStaysStopped(env, worker, msgs[1..]);
    }
  }

  /** Processing two batches in a row is processing their concatenation. */
  lemma {:induction false} FoldAppend(step: Step, worker: Worker, a: seq<Message>, b: seq<Message>)
    ensures Fold(step, worker, a + b).0 == Fold(step, Fold(step, worker, a).0, b).0
    ensures Fold(step, worker, a + b).1 == Fold(step, worker, a).1 + Fold(step, Fold(step, worker, a).0, b).1
    decreases |a|
  {
    if |a| == 0 {
      assert a + b == b;
    } else {
      assert (a + b)[0] == a[0];
      assert (a + b)[1..] == a[1..] + b;
      FoldAppend(step, step(worker, a[0]).0, a[1..], b);
    }
  }

  /**
    After a quit message the handler is not running, and every later message,
    decode or quit, is ignored: the effects are exactly those up to the quit.
   */
  lemma QuitIsFinal(env: Env, worker: Worker, before: seq<Message>, after: seq<Message>)
    ensures !Run(env, worker, before + [Quit]).0.running || !Run(env, worker, before + [Quit]).0.looping
    ensures Run(env, worker, before + [Quit] + after).0 == Run(env, worker, before + [Quit]).0
    ensures Run(env, worker, before + [Quit] + after).1 == Run(env, worker, before + [Quit]).1
  {
    FoldAppend(Looper(env), worker, before, [Quit]);
    assert [Quit][1..] == [];
    var stopped := Run(env, worker, before + [Quit]).0;
    FoldAppend(Looper(env), worker, before + [Quit], after);
    StoppedStaysStopped(env, stopped, after);
  }

  /**
    With the activity handler present and no faulting frame before the first
    quit, a running handler sends exactly one reply per decode request that
    precedes the first quit, none after it (whatever follows the quit).
   */
  lemma {:induction false} OneReplyPerDecode(env: Env, worker: Worker, msgs: seq<Message>)
    requires env.activityHandlerPresent
    requires worker.running && worker.looping
    requires WellFormedBeforeQuit(msgs)
    ensures SendCount(Run(env, worker, msgs).1) == DecodesBeforeQuit(msgs)
    decreases |msgs|
  {
    if |msgs| > 0 {
      var (next, effects) := Dispatch(env, worker, msgs[0]);
      var rest := Run(env, next, msgs[1..]).1;
      SendCountAppend(effects, rest);
      if msgs[0].Quit? {
        StoppedStaysStopped(env, next, msgs[1..]);
      } else {
        if msgs[0].Decode? {
          assert WellFormed(msgs[0]);
        }
        assert next == worker;
        OneReplyPerDecode(env, next, msgs[1..]);
      }
    }
  }

  /** With no activity handler, nothing is ever sent, whatever the messages. */
  lemma {:induction false} SilentWithoutActivityHandler(env: Env, worker: Worker, msgs: seq<Message>)
    requires !env.activityHandlerPresent
    ensures SendCount(Run(env, worker, msgs).1) == 0
    decreases |msgs|
  {
    if |msgs| > 0 {
      var (next, effects) := Dispatch(env, worker, msgs[0]);
      SendCountAppend(effects, Run(env, next, msgs[1..]).1);
      SilentWithoutActivityHandler(env, next, msgs[1..]);
    }
  }

  lemma ResetFollowsAttemptAppend(a: seq<Effect>, b: seq<Effect>)
    requires ResetFollowsAttempt(a) && ResetFollowsAttempt(b)
    ensures ResetFollowsAttempt(a + b)
  {
    forall i | 0 <= i < |a + b| && (a + b)[i].ReaderDecode?
      ensures i + 1 < |a + b| && (a + b)[i + 1] == ReaderReset
    {
      if i < |a| {
        assert a[i].ReaderDecode?;
      } else {
        assert b[i - |a|].ReaderDecode?;
      }
    }
  }

  /** Over any sequence of messages, the reader is reset right after every attempt. */
  lemma {:induction false} ReaderAlwaysReset(env: Env, worker: Worker, msgs: seq<Message>)
    ensures ResetFollowsAttempt(Run(env, worker, msgs).1)
    decreases |msgs|
  {
    if |msgs| > 0 {
      var step := Dispatch(env, worker, msgs[0]);
      ReaderAlwaysReset(env, step.0, msgs[1..]);
      ResetFollowsAttemptAppend(step.1, Run(env, step.0, msgs[1..]).1);
    }
  }
}

=== FILE: orientation_detector.dfy ===
/**
  `CaptureActivity.MyOrientationDetector`: buckets the sensor's angle into
  90, 270 or -1 (neither), and asks for an activity restart only when the
  bucket flips between 90 and 270 relative to the remembered orientation.
 */
module OrientationDetector {

  /** Android's `Surface.ROTATION_*` codes. */
  const ROTATION_0 := 0
  const ROTATION_90 := 1
  const ROTATION_180 := 2
  const ROTATION_270 := 3

  /** The values `lastOrientation` and a bucketed angle can take. */
  predicate IsBucket(o: int) {
    o == -1 || o == 90 || o == 270
  }

  /** The other landscape orientation; -1 has none and stays -1. */
  function Opposite(o: int): int {
    if o == 90 then 270 else if o == 270 then 90 else -1
  }

  /** `setLastOrientation`: display rotation 90 means the device sits at 270, and vice versa. */
  function OrientationForRotation(rotation: int): (o: int)
    ensures IsBucket(o)
    ensures o == 270 <==> rotation == ROTATION_90
    ensures o == 90 <==> rotation == ROTATION_270
    ensures o == -1 <==> rotation != ROTATION_90 && rotation != ROTATION_270
  {
    if rotation == ROTATION_90 then 270
    else if rotation == ROTATION_270 then 90
    else -1
  }

  /** The bucketing step of `onOrientationChanged`: open intervals (45,135) and (225,315). */
  function Bucket(angle: int): (o: int)
    ensures IsBucket(o)
    ensures o == 90 <==> 45 < angle < 135
    ensures o == 270 <==> 225 < angle < 315
  {
    if 45 < angle && angle < 135 then 90
    else if 225 < angle && angle < 315 then 270
    else -1
  }

  /** The detector's one field, `lastOrientation`. */
  datatype Detector = Detector(last: int)

  /** A detector just constructed, before `setLastOrientation`. */
  const Unset := Detector(-1)

  /**
    `setLastOrientation`: overwrites the remembered orientation from the
    display rotation, whatever the detector held before.
   */
  function SetLastOrientation(rotation: int): Detector {
    Detector(OrientationForRotation(rotation))
  }

  /**
    `onOrientationChanged`: returns the new detector and whether a restart
    was requested. A restart fires exactly on a 90/270 flip, and only then is
    the remembered orientation updated, to the new bucket.
   */
  function OnOrientationChanged(d: Detector, angle: int): (r: (Detector, bool))
    ensures r.1 <==> (Bucket(angle) == 90 && d.last == 270) || (Bucket(angle) == 270 && d.last == 90)
    ensures r.1 ==> r.0.last == Bucket(angle) && r.0.last == Opposite(d.last)
    ensures !r.1 ==> r.0 == d
    ensures IsBucket(d.last) ==> IsBucket(r.0.last)
  {
    var o := Bucket(angle);
    if (o == 90 && d.last == 270) || (o == 270 && d.last == 90) then (Detector(o), true)
    else (d, false)
  }

  /** Feeds a sequence of sensor angles; returns the final detector and the number of restarts. */
  function Track(d: Detector, angles: seq<int>): (Detector, nat)
    decreases |angles|
  {
    if |angles| == 0 then (d, 0)
    else
      var step := OnOrientationChanged(d, angles[0]);
      var tail := Track(step.0, angles[1..]);
      (tail.0, tail.1 + (if step.1 then 1 else 0))
  }

  /** `lastOrientation` never leaves {-1, 90, 270}. */
  lemma {:induction false} TrackKeepsBucket(d: Detector, angles: seq<int>)
    requires IsBucket(d.last)
    ensures IsBucket(Track(d, angles).0.last)
    decreases |angles|
  {
    if |angles| > 0 {
      TrackKeepsBucket(OnOrientationChanged(d, angles[0]).0, angles[1..]);
    }
  }

  /** A detector that starts at -1 stays at -1 and never asks for a restart. */
  lemma {:induction false} UnknownIsAbsorbing(d: Detector, angles: seq<int>)
    requires d.last == -1
    ensures Track(d, angles) == (d, 0)
    decreases |angles|
  {
    if |angles| > 0 {
      UnknownIsAbsorbing(d, angles[1..]);
    }
  }

  /**
    Every restart flips the remembered orientation: after n restarts it is
    the starting orientation if n is even and the opposite one if n is odd.
   */
  lemma {:induction false} RestartsAlternate(d: Detector, angles: seq<int>)
    requires d.last == 90 || d.last == 270
    ensures Track(d, angles).0.last == if Track(d, angles).1 % 2 == 0 then d.last else Opposite(d.last)
    decreases |angles|
  {
    if |angles| > 0 {
      var step := OnOrientationChanged(d, angles[0]);
      RestartsAlternate(step.0, angles[1..]);
    }
  }

  /** Only a display that started at rotation 90 or 270 can ever lead to a restart. */
  lemma RestartNeedsLandscapeStart(rotation: int, angles: seq<int>)
    ensures Track(SetLastOrientation(rotation), angles).1 > 0 ==>
      rotation == ROTATION_90 || rotation == ROTATION_270
  {
    var d := SetLastOrientation(rotation);
    if d.last == -1 {
      UnknownIsAbsorbing(d, angles);
    }
  }
}

=== FILE: pipeline.dfy ===
/**
  How a frame forwarded by the preview callback is treated by the decode
  handler: the message's (arg1, arg2) become decode's (width, height).
 */
module Pipeline {
  import opened Common
  import Rotation
  import PreviewCallback
  import DecodeHandler

  /**
    Stand-ins for the generated resource ids `R.id.decode` and `R.id.quit`;
    only that they differ matters.
   */
  const DECODE: int := 1
  const QUIT: int := 2

  /**
    The message the decode handler sees for a forwarded frame: its `what`
    code selects the branch, and only a decode request carries the frame.
   */
  function AsMessage(m: PreviewCallback.FrameMessage): DecodeHandler.Message {
    if m.what == DECODE then DecodeHandler.Decode(m.data, m.arg1, m.arg2)
    else if m.what == QUIT then DecodeHandler.Quit
    else DecodeHandler.Unknown(m.what)
  }

  /**
    A portrait screen with a landscape camera resolution packs the smaller
    side first, which is exactly the case `decode` rotates; a landscape screen
    with a landscape camera is passed through unrotated.
   */
  lemma PortraitScreenRotates(cb: PreviewCallback.Callback, data: seq<byte>,
                              camera: PreviewCallback.Point, screen: PreviewCallback.Point)
    requires cb.handler.Some? && camera.x > camera.y
    ensures var m := PreviewCallback.OnPreviewFrame(cb, data, Some(camera), screen).1.value;
      (screen.x < screen.y ==> m.arg1 < m.arg2) &&
      (screen.x < screen.y && Rotation.Area(m.arg1, m.arg2) <= |data| ==>
         Rotation.Normalize(data, m.arg1, m.arg2) == Some(Rotation.Rotated(data, m.arg1, m.arg2))) &&
      (screen.x >= screen.y ==> Rotation.Normalize(data, m.arg1, m.arg2) == Some(data))
  {
    var m := PreviewCallback.OnPreviewFrame(cb, data, Some(camera), screen).1.value;
    Rotation.NormalizeGuard(data, m.arg1, m.arg2);
  }

  /**
    A preview frame registered under the decode code and holding at least
    camera.x*camera.y bytes (an NV21 frame holds half as much again) never
    makes the rotation fault, and once the handler decodes it the activity
    gets exactly one reply.
   */
  lemma ForwardedFrameGetsOneReply(env: DecodeHandler.Env, cb: PreviewCallback.Callback, data: seq<byte>,
                                   camera: PreviewCallback.Point, screen: PreviewCallback.Point)
    requires cb.handler.Some? && cb.what == DECODE && env.activityHandlerPresent
    requires camera.x * camera.y <= |data|
    ensures var m := PreviewCallback.OnPreviewFrame(cb, data, Some(camera), screen).1.value;
      DecodeHandler.WellFormed(AsMessage(m)) &&
      DecodeHandler.SendCount(DecodeHandler.HandleMessage(env, DecodeHandler.Initial, AsMessage(m)).1) == 1
  {
    var m := PreviewCallback.OnPreviewFrame(cb, data, Some(camera), screen).1.value;
    assert m.arg1 * m.arg2 == camera.x * camera.y;
    assert Rotation.Area(m.arg1, m.arg2) <= |data|;
    Rotation.NormalizeGuard(data, m.arg1, m.arg2);
  }

  /**
    A frame registered under any other code is never decoded: the quit code
    stops the handler, and an unrecognised code is ignored; neither replies.
   */
  lemma OtherCodeGetsNoReply(env: DecodeHandler.Env, worker: DecodeHandler.Worker, cb: PreviewCallback.Callback,
                             data: seq<byte>, camera: PreviewCallback.Point, screen: PreviewCallback.Point)
    requires cb.handler.Some? && cb.what != DECODE
    ensures var m := PreviewCallback.OnPreviewFrame(cb, data, Some(camera), screen).1.value;
      var (after, effects) := DecodeHandler.HandleMessage(env, worker, AsMessage(m));
      DecodeHandler.SendCount(effects) == 0 &&
      (forall e :: e in effects ==> !e.BuildSource? && !e.ReaderDecode?) &&
      (cb.what != QUIT ==> after == worker && effects == []) &&
      (cb.what == QUIT && worker.running ==> !after.running && !after.looping)
  {
    var m := PreviewCallback.OnPreviewFrame(cb, data, Some(camera), screen).1.value;
    if worker.running && cb.what == QUIT {
      DecodeHandler.SendCountOne(DecodeHandler.LooperQuit);
    }
  }
}

=== FILE: preview_callback.dfy ===
/**
  The camera preview callback (`PreviewCallback`): it holds at most one
  registered handler and forwards the next preview frame to it, packing the
  camera resolution according to the screen's aspect, then forgets the
  registration so that one registration yields at most one message.
 */
module PreviewCallback {
  import opened Common

  /** `android.graphics.Point`. */
  datatype Point = Point(x: int, y: int)

  /** Identity of the Android handler a frame is sent to. */
  datatype Target = Target(id: nat)

  /** The message `obtainMessage(what, arg1, arg2, data)` builds and sends. */
  datatype FrameMessage = FrameMessage(target: Target, what: int, arg1: int, arg2: int, data: seq<byte>)

  /** The fields `previewHandler` (None is null) and `previewMessage`. */
  datatype Callback = Callback(handler: Option<Target>, what: int)

  /** A newly constructed callback has no handler registered. */
  const Fresh := Callback(None, 0)

  /** `setHandler`: installs the handler and message code, replacing whatever was there. */
  function SetHandler(cb: Callback, handler: Option<Target>, what: int): (r: Callback)
    ensures r.handler == handler && r.what == what
  {
    Callback(handler, what)
  }

  /** Portrait screens send (camera.y, camera.x); every other screen, square ones included, (camera.x, camera.y). */
  function Pack(camera: Point, screen: Point): (int, int) {
    if screen.x < screen.y then (camera.y, camera.x) else (camera.x, camera.y)
  }

  /**
    `onPreviewFrame`: with a known camera resolution and a registered handler,
    send one message carrying the frame and the packed resolution, then clear
    the handler; otherwise drop the frame and change nothing.
   */
  function OnPreviewFrame(cb: Callback, data: seq<byte>, camera: Option<Point>, screen: Point)
    : (r: (Callback, Option<FrameMessage>))
    ensures r.1.Some? <==> camera.Some? && cb.handler.Some?
    ensures r.1.None? ==> r.0 == cb
    ensures r.1.Some? ==>
      r.0.handler.None? && r.0.what == cb.what &&
      r.1.value.target == cb.handler.value && r.1.value.what == cb.what && r.1.value.data == data
    ensures r.1.Some? && screen.x < screen.y ==>
      r.1.value.arg1 == camera.value.y && r.1.value.arg2 == camera.value.x
    ensures r.1.Some? && screen.x >= screen.y ==>
      r.1.value.arg1 == camera.value.x && r.1.value.arg2 == camera.value.y
    ensures r.1.Some? ==>
      r.1.value.arg1 * r.1.value.arg2 == camera.value.x * camera.value.y &&
      multiset{r.1.value.arg1, r.1.value.arg2} == multiset{camera.value.x, camera.value.y}
  {
    if camera.Some? && cb.handler.Some? then
      var (arg1, arg2) := Pack(camera.value, screen);
      (cb.(handler := None), Some(FrameMessage(cb.handler.value, cb.what, arg1, arg2, data)))
    else (cb, None)
  }

  /** Delivers `frames` in order to the callback; returns the final state and the messages sent. */
  function Feed(cb: Callback, frames: seq<seq<byte>>, camera: Option<Point>, screen: Point)
    : (Callback, seq<FrameMessage>)
    decreases |frames|
  {
    if |frames| == 0 then (cb, [])
    else
      var step := OnPreviewFrame(cb, frames[0], camera, screen);
      var tail := Feed(step.0, frames[1..], camera, screen);
      (tail.0, (if step.1.Some? then [step.1.value] else []) + tail.1)
  }

  /** Without a registered handler, any number of frames is dropped and nothing changes. */
  lemma {:induction false} FeedUnregistered(cb: Callback, frames: seq<seq<byte>>, camera: Option<Point>, screen: Point)
    requires cb.handler.None? || camera.None?
    ensures Feed(cb, frames, camera, screen).0 == cb
    ensures Feed(cb, frames, camera, screen).1 == []
    decreases |frames|
  {
    if |frames| > 0 {
      FeedUnregistered(cb, frames[1..], camera, screen);
    }
  }

  /**
    One registration, then any number of frames: exactly one message if the
    resolution is known and at least one frame arrives, carrying the first
    frame; none otherwise. The registration is used up either way.
   */
  lemma OneMessagePerRegistration(cb: Callback, frames: seq<seq<byte>>, camera: Option<Point>, screen: Point)
    requires cb.handler.Some?
    ensures |Feed(cb, frames, camera, screen).1| <= 1
    ensures |Feed(cb, frames, camera, screen).1| == 1 <==> camera.Some? && |frames| > 0
    ensures |Feed(cb, frames, camera, screen).1| == 1 ==>
      Feed(cb, frames, camera, screen).1[0] ==
        FrameMessage(cb.handler.value, cb.what,
                     Pack(camera.value, screen).0, Pack(camera.value, screen).1, frames[0])
    ensures camera.Some? && |frames| > 0 ==> Feed(cb, frames, camera, screen).0.handler.None?
  {
    if camera.None? {
      FeedUnregistered(cb, frames, camera, screen);
    } else if |frames| > 0 {
      var step := OnPreviewFrame(cb, frames[0], camera, screen);
      FeedUnregistered(step.0, frames[1..], camera, screen);
    }
  }

  /** What the capture side does to the callback: register a handler, or deliver a frame. */
  datatype CaptureEvent =
    | Register(handler: Option<Target>, what: int)
    | PreviewFrame(data: seq<byte>)

  /** Processes capture events in order; returns the final state and the messages sent. */
  function Replay(cb: Callback, events: seq<CaptureEvent>, camera: Option<Point>, screen: Point)
    : (Callback, seq<FrameMessage>)
    decreases |events|
  {
    if |events| == 0 then (cb, [])
    else
      match events[0]
      case Register(handler, what) =>
        Replay(SetHandler(cb, handler, what), events[1..], camera, screen)
      case PreviewFrame(data) =>
        var step := OnPreviewFrame(cb, data, camera, screen);
        var tail := Replay(step.0, events[1..], camera, screen);
        (tail.0, (if step.1.Some? then [step.1.value] else []) + tail.1)
  }

  /** Registrations of a non-null handler among the events. */
  function Registrations(events: seq<CaptureEvent>): nat
    decreases |events|
  {
    if |events| == 0 then 0
    else (if events[0].Register? && events[0].handler.Some? then 1 else 0) + Registrations(events[1..])
  }

  function Held(cb: Callback): nat {
    if cb.handler.Some? then 1 else 0
  }

  /**
    However registrations and frames interleave, the messages sent plus a
    registration still pending never exceed the registrations made (counting
    one already pending at the start): each registration yields at most one
    message.
   */
  lemma {:induction false} AtMostOneMessagePerRegistration(
    cb: Callback, events: seq<CaptureEvent>, camera: Option<Point>, screen: Point)
    ensures |Replay(cb, events, camera, screen).1| + Held(Replay(cb, events, camera, screen).0)
            <= Registrations(events) + Held(cb)
    decreases |events|
  {
    if |events| > 0 {
      match events[0]
      case Register(handler, what) =>
        AtMostOneMessagePerRegistration(SetHandler(cb, handler, what), events[1..], camera, screen);
      case PreviewFrame(data) =>
        var step := OnPreviewFrame(cb, data, camera, screen);
        AtMostOneMessagePerRegistration(step.0, events[1..], camera, screen);
    }
  }

  /**
    `setHandler` replaces a pending registration rather than keeping it: the
    next frame goes to the handler registered last, with its message code.
   */
  lemma {:induction false} LatestRegistrationWins(
    cb: Callback, first: Target, second: Target, what1: int, what2: int,
    data: seq<byte>, camera: Point, screen: Point)
    ensures var out := Replay(cb, [Register(Some(first), what1), Register(Some(second), what2), PreviewFrame(data)],
                              Some(camera), screen).1;
      |out| == 1 && out[0].target == second && out[0].what == what2 && out[0].data == data
  {
    var events := [Register(Some(first), what1), Register(Some(second), what2), PreviewFrame(data)];
    var cb2 := SetHandler(SetHandler(cb, Some(first), what1), Some(second), what2);
    assert events[1..] == [Register(Some(second), what2), PreviewFrame(data)];
    assert events[1..][1..] == [PreviewFrame(data)];
    assert Replay(cb, events, Some(camera), screen) == Replay(cb2, [PreviewFrame(data)], Some(camera), screen);
    assert [PreviewFrame(data)][1..] == [];
  }

  /**
    From a newly constructed callback, the messages ever sent never outnumber
    the non-null registrations made.
   */
  lemma MessagesFromFresh(events: seq<CaptureEvent>, camera: Option<Point>, screen: Point)
    ensures |Replay(Fresh, events, camera, screen).1| <= Registrations(events)
  {
    AtMostOneMessagePerRegistration(Fresh, events, camera, screen);
  }
}

=== FILE: rotation.dfy ===
/**
  The portrait rotation that `DecodeHandler.decode` applies to a preview frame
  before decoding it. For every source column `x < width` and row `y < height`
  the loop copies the byte at `y + x*height` to `y*width + width - x - 1` of a
  fresh zero-filled array of the same length as the input.
 */
module Rotation {
  import opened Common

  /** Destination index written for loop position (x, y). */
  function DestIndex(width: int, x: int, y: int): int {
    y * width + width - x - 1
  }

  /** Source index read for loop position (x, y). */
  function SourceIndex(height: int, x: int, y: int): int {
    y + x * height
  }

  /** Number of luminance bytes the loop touches: width*height when both loops run. */
  function Area(width: int, height: int): nat {
    if width <= 0 || height <= 0 then 0 else width * height
  }

  /** The loop column that writes destination index i. */
  function ColumnOf(width: int, i: int): int
    requires width > 0
  {
    width - 1 - i % width
  }

  /** The loop row that writes destination index i. */
  function RowOf(width: int, i: int): int
    requires width > 0
  {
    i / width
  }

  /** Reference definition: byte i of the rotated buffer. */
  function RotatedPixel(data: seq<byte>, width: int, height: int, i: int): byte {
    if 0 <= i < Area(width, height) then
      var s := SourceIndex(height, ColumnOf(width, i), RowOf(width, i));
      if 0 <= s < |data| then data[s] else 0
    else 0
  }

  /** Reference definition: the whole rotated buffer, tail bytes left zero. */
  function Rotated(data: seq<byte>, width: int, height: int): seq<byte>
    requires Area(width, height) <= |data|
  {
    seq(|data|, i => RotatedPixel(data, width, height, i))
  }

  /** Euclidean division of `q*d + r` by `d` gives back `q` and `r`. */
  lemma DivModUnique(i: int, d: int, q: int, r: int)
    requires d > 0 && 0 <= r < d && i == q * d + r
    ensures i / d == q && i % d == r
  {
    var q', r' := i / d, i % d;
    assert (q - q') * d == r' - r;
    var k := q - q';
    if k > 0 {
      MulMono(1, k, d);
    } else if k < 0 {
      MulMono(1, -k, d);
    }
  }

  lemma MulMono(a: int, b: int, c: int)
    requires a <= b && c >= 0
    ensures a * c <= b * c
  {
  }

  /** Both index expressions of the loop body stay inside [0, width*height). */
  lemma IndexBounds(width: int, height: int, x: int, y: int)
    requires 0 <= x < width && 0 <= y < height
    ensures 0 <= DestIndex(width, x, y) < Area(width, height)
    ensures 0 <= SourceIndex(height, x, y) < Area(width, height)
  {
    MulMono(y, height - 1, width);
    MulMono(x, width - 1, height);
  }

  /** The last byte the loop reads is the last luminance byte. */
  lemma LastSource(width: int, height: int)
    requires 0 < width && 0 < height
    ensures SourceIndex(height, width - 1, height - 1) == Area(width, height) - 1
  {
  }

  /** The loop position writing destination index i is a valid position, and writes exactly i. */
  lemma DestInverse(width: int, height: int, i: int)
    requires 0 <= i < Area(width, height)
    ensures 0 <= ColumnOf(width, i) < width && 0 <= RowOf(width, i) < height
    ensures DestIndex(width, ColumnOf(width, i), RowOf(width, i)) == i
    ensures 0 <= SourceIndex(height, ColumnOf(width, i), RowOf(width, i)) < Area(width, height)
  {
    var r := RowOf(width, i);
    if r >= height {
      MulMono(height, r, width);
      assert false;
    }
    IndexBounds(width, height, ColumnOf(width, i), r);
  }

  /** Loop position (x, y) is recovered from the destination index it writes. */
  lemma DestRoundTrip(width: int, height: int, x: int, y: int)
    requires 0 <= x < width && 0 <= y < height
    ensures ColumnOf(width, DestIndex(width, x, y)) == x
    ensures RowOf(width, DestIndex(width, x, y)) == y
  {
    DivModUnique(DestIndex(width, x, y), width, y, width - x - 1);
  }

  /** Loop position (x, y) is recovered from the source index it reads. */
  lemma SourceRoundTrip(width: int, height: int, x: int, y: int)
    requires 0 <= x < width && 0 <= y < height
    ensures SourceIndex(height, x, y) / height == x
    ensures SourceIndex(height, x, y) % height == y
  {
    DivModUnique(SourceIndex(height, x, y), height, x, y);
  }

  /** Destination index i has been written once the loop reached column x, row y. */
  predicate Visited(width: int, height: int, x: int, y: int, i: int) {
    0 <= i < Area(width, height) &&
    (ColumnOf(width, i) < x || (ColumnOf(width, i) == x && RowOf(width, i) < y))
  }

  /** Content of the output array after the loop reached column x, row y. */
  function Partial(data: seq<byte>, width: int, height: int, x: int, y: int, i: int): byte
    requires 0 <= i
  {
    if Visited(width, height, x, y, i) then
      var s := SourceIndex(height, ColumnOf(width, i), RowOf(width, i));
      if 0 <= s < |data| then data[s] else 0
    else 0
  }

  /** One inner iteration adds exactly the destination index of (x, y). */
  lemma VisitedStep(width: int, height: int, x: int, y: int, i: int)
    requires 0 <= x < width && 0 <= y < height && 0 <= i
    ensures Visited(width, height, x, y + 1, i) <==>
            Visited(width, height, x, y, i) || i == DestIndex(width, x, y)
    ensures !Visited(width, height, x, y, DestIndex(width, x, y))
  {
    var d := DestIndex(width, x, y);
    IndexBounds(width, height, x, y);
    DestRoundTrip(width, height, x, y);
    if i < Area(width, height) && ColumnOf(width, i) == x && RowOf(width, i) == y {
      DestInverse(width, height, i);
    }
  }

  /** Finishing a column is the same as starting the next one. */
  lemma VisitedColumn(width: int, height: int, x: int, i: int)
    requires 0 <= x < width && 0 < height && 0 <= i
    ensures Visited(width, height, x, height, i) <==> Visited(width, height, x + 1, 0, i)
  {
    if i < Area(width, height) {
      DestInverse(width, height, i);
    }
  }

  /** After the last column every luminance index has been written, and nothing else. */
  lemma VisitedAll(width: int, height: int, i: int)
    requires 0 < width && 0 <= i
    ensures Visited(width, height, width, 0, i) <==> i < Area(width, height)
  {
  }

  /** The output array after the loop reached column x, row y. */
  function PartialBuffer(data: seq<byte>, width: int, height: int, x: int, y: int): seq<byte> {
    seq(|data|, i requires 0 <= i < |data| => Partial(data, width, height, x, y, i))
  }

  /** Writing the byte of (x, y) advances the partial buffer by exactly one position. */
  lemma PartialStep(data: seq<byte>, width: int, height: int, x: int, y: int)
    requires 0 <= x < width && 0 <= y < height
    requires 0 <= SourceIndex(height, x, y) < |data| && 0 <= DestIndex(width, x, y) < |data|
    ensures PartialBuffer(data, width, height, x, y + 1) ==
            PartialBuffer(data, width, height, x, y)[DestIndex(width, x, y) := data[SourceIndex(height, x, y)]]
  {
    var after := PartialBuffer(data, width, height, x, y + 1);
    var expected := PartialBuffer(data, width, height, x, y)[DestIndex(width, x, y) := data[SourceIndex(height, x, y)]];
    forall i | 0 <= i < |data|
      ensures after[i] == expected[i]
    {
      VisitedStep(width, height, x, y, i);
      DestRoundTrip(width, height, x, y);
    }
  }

  /** Finishing a column leaves the same buffer as starting the next one. */
  lemma PartialColumn(data: seq<byte>, width: int, height: int, x: int, y: int)
    requires 0 <= x < width && (y == height || (height <= 0 && y == 0))
    ensures PartialBuffer(data, width, height, x, y) == PartialBuffer(data, width, height, x + 1, 0)
  {
    forall i | 0 <= i < |data|
      ensures Partial(data, width, height, x, y, i) == Partial(data, width, height, x + 1, 0, i)
    {
      if height > 0 {
        VisitedColumn(width, height, x, i);
      }
    }
  }

  /** Once every column is done the partial buffer is the reference rotation. */
  lemma PartialDone(data: seq<byte>, width: int, height: int, x: int)
    requires Area(width, height) <= |data|
    requires x == width || (width <= 0 && x == 0)
    ensures PartialBuffer(data, width, height, x, 0) == Rotated(data, width, height)
  {
    forall i | 0 <= i < |data|
      ensures Partial(data, width, height, x, 0, i) == RotatedPixel(data, width, height, i)
    {
      if width > 0 {
        VisitedAll(width, height, i);
        if i < Area(width, height) {
          DestInverse(width, height, i);
        }
      }
    }
  }

  /**
    The nested rotation loop of `decode`, on a fresh array of the input's
    length. It returns None exactly when the loop would index outside the
    arrays (ArrayIndexOutOfBoundsException), which happens iff the frame holds
    fewer than width*height bytes; otherwise every luminance byte lands at its
    rotated place and the tail stays zero.
   */
  method RotateLoop(data: seq<byte>, width: int, height: int) returns (rotated: Option<seq<byte>>)
    ensures rotated.Some? <==> Area(width, height) <= |data|
    ensures rotated.Some? ==> |rotated.value| == |data|
    ensures rotated.Some? ==>
      forall x, y :: 0 <= x < width && 0 <= y < height ==>
        0 <= DestIndex(width, x, y) < Area(width, height) && 0 <= SourceIndex(height, x, y) < Area(width, height) &&
        rotated.value[DestIndex(width, x, y)] == data[SourceIndex(height, x, y)]
    ensures rotated.Some? ==>
      forall i :: Area(width, height) <= i < |data| ==> rotated.value[i] == 0
    ensures rotated.Some? ==> rotated.value == Rotated(data, width, height)
  {
    var n := |data|;
    var a := new byte[n](_ => 0);
    var x := 0;
    assert a[..] == PartialBuffer(data, width, height, 0, 0);
    while x < width
      invariant 0 <= x && (x <= width || x == 0)
      invariant 0 < x && 0 < height ==> SourceIndex(height, x - 1, height - 1) < n
      invariant a[..] == PartialBuffer(data, width, height, x, 0)
    {
      var y := 0;
      while y < height
        invariant 0 <= y && (y <= height || y == 0)
        invariant 0 < y ==> SourceIndex(height, x, y - 1) < n
        invariant a[..] == PartialBuffer(data, width, height, x, y)
      {
        var s := SourceIndex(height, x, y);
        var d := DestIndex(width, x, y);
        IndexBounds(width, height, x, y);
        if s >= n || d >= n {
          return None;
        }
        PartialStep(data, width, height, x, y);
        a[d] := data[s];
        y := y + 1;
      }
      PartialColumn(data, width, height, x, y);
      x := x + 1;
    }
    if 0 < width && 0 < height {
      LastSource(width, height);
    }
    PartialDone(data, width, height, x);
    rotated := Some(a[..]);
    RotatedMapsPixels(data, width, height);
  }

  /** The reference rotation at one loop position. */
  lemma RotatedAt(data: seq<byte>, width: int, height: int, x: int, y: int)
    requires Area(width, height) <= |data|
    requires 0 <= x < width && 0 <= y < height
    ensures 0 <= DestIndex(width, x, y) < |data| && 0 <= SourceIndex(height, x, y) < |data|
    ensures Rotated(data, width, height)[DestIndex(width, x, y)] == data[SourceIndex(height, x, y)]
  {
    IndexBounds(width, height, x, y);
    DestRoundTrip(width, height, x, y);
  }

  /** The reference rotation sends source pixel (x, y) to its rotated place and zeroes the tail. */
  lemma RotatedMapsPixels(data: seq<byte>, width: int, height: int)
    requires Area(width, height) <= |data|
    ensures |Rotated(data, width, height)| == |data|
    ensures forall x, y :: 0 <= x < width && 0 <= y < height ==>
      0 <= DestIndex(width, x, y) < Area(width, height) &&
      0 <= SourceIndex(height, x, y) < Area(width, height) &&
      Rotated(data, width, height)[DestIndex(width, x, y)] == data[SourceIndex(height, x, y)]
    ensures forall i :: Area(width, height) <= i < |data| ==> Rotated(data, width, height)[i] == 0
  {
    forall x, y | 0 <= x < width && 0 <= y < height
      ensures 0 <= DestIndex(width, x, y) < Area(width, height)
      ensures 0 <= SourceIndex(height, x, y) < Area(width, height)
      ensures Rotated(data, width, height)[DestIndex(width, x, y)] == data[SourceIndex(height, x, y)]
    {
      IndexBounds(width, height, x, y);
      DestRoundTrip(width, height, x, y);
    }
  }

  /** The loop positions (x, y) whose write lands on destination index i. */
  ghost function DestWriters(width: int, height: int, i: int): set<(int, int)> {
    set x, y | 0 <= x < width && 0 <= y < height && DestIndex(width, x, y) == i :: (x, y)
  }

  /** The loop positions (x, y) whose read comes from source index i. */
  ghost function SourceReaders(width: int, height: int, i: int): set<(int, int)> {
    set x, y | 0 <= x < width && 0 <= y < height && SourceIndex(height, x, y) == i :: (x, y)
  }

  /** Each destination index in [0, width*height) is written by exactly one loop position, and no other index is written. */
  lemma DestinationBijection(width: int, height: int, i: int)
    ensures 0 <= i < Area(width, height) ==> |DestWriters(width, height, i)| == 1
    ensures !(0 <= i < Area(width, height)) ==> DestWriters(width, height, i) == {}
  {
    if 0 <= i < Area(width, height) {
      DestInverse(width, height, i);
      var p := (ColumnOf(width, i), RowOf(width, i));
      forall q | q in DestWriters(width, height, i)
        ensures q == p
      {
        DestRoundTrip(width, height, q.0, q.1);
      }
      assert DestWriters(width, height, i) == {p};
    } else {
      forall q | q in DestWriters(width, height, i)
        ensures false
      {
        IndexBounds(width, height, q.0, q.1);
      }
    }
  }

  /** Each source index in [0, width*height) is read by exactly one loop position, and no other index is read. */
  lemma SourceBijection(width: int, height: int, i: int)
    ensures 0 <= i < Area(width, height) ==> |SourceReaders(width, height, i)| == 1
    ensures !(0 <= i < Area(width, height)) ==> SourceReaders(width, height, i) == {}
  {
    if 0 <= i < Area(width, height) {
      var x, y := i / height, i % height;
      DivModUnique(i, height, x, y);
      if x >= width {
        MulMono(width, x, height);
        assert false;
      }
      var p := (x, y);
      assert SourceIndex(height, x, y) == i;
      forall q | q in SourceReaders(width, height, i)
        ensures q == p
      {
        SourceRoundTrip(width, height, q.0, q.1);
      }
      assert SourceReaders(width, height, i) == {p};
    } else {
      forall q | q in SourceReaders(width, height, i)
        ensures false
      {
        IndexBounds(width, height, q.0, q.1);
      }
    }
  }

  /**
    The orientation step of `decode`: a frame narrower than it is tall is
    rotated, anything else (square frames included) passes through untouched.
    None stands for the out-of-bounds fault of the rotation loop.
   */
  function Normalize(data: seq<byte>, width: int, height: int): Option<seq<byte>> {
    if width < height then
      if Area(width, height) <= |data| then Some(Rotated(data, width, height)) else None
    else Some(data)
  }

  /** The guard is strict: frames with width >= height are never rotated or faulted. */
  lemma NormalizeGuard(data: seq<byte>, width: int, height: int)
    ensures width >= height ==> Normalize(data, width, height) == Some(data)
    ensures Normalize(data, width, height).None? <==> width < height && Area(width, height) > |data|
    ensures width < height && Area(width, height) <= |data| ==>
      Normalize(data, width, height) == Some(Rotated(data, width, height))
  {
  }

  /** RotatedAt with the two indices already computed. */
  lemma RotatedAtIndex(data: seq<byte>, width: int, height: int, x: int, y: int, d: int, s: int)
    requires Area(width, height) <= |data|
    requires 0 <= x < width && 0 <= y < height
    requires d == DestIndex(width, x, y) && s == SourceIndex(height, x, y)
    ensures 0 <= d < |data| && 0 <= s < |data|
    ensures Rotated(data, width, height)[d] == data[s]
  {
    RotatedAt(data, width, height, x, y);
  }

  /** Where each byte of a 3x3 frame ends up under the loop body. */
  lemma ThreeByThree(data: seq<byte>)
    requires |data| == 9
    ensures |Rotated(data, 3, 3)| == 9
    ensures Rotated(data, 3, 3)[0] == data[6] && Rotated(data, 3, 3)[1] == data[3]
    ensures Rotated(data, 3, 3)[2] == data[0] && Rotated(data, 3, 3)[3] == data[7]
    ensures Rotated(data, 3, 3)[4] == data[4] && Rotated(data, 3, 3)[5] == data[1]
    ensures Rotated(data, 3, 3)[6] == data[8] && Rotated(data, 3, 3)[7] == data[5]
    ensures Rotated(data, 3, 3)[8] == data[2]
  {
    assert Rotated(data, 3, 3)[0] == data[6] by { RotatedAtIndex(data, 3, 3, 2, 0, 0, 6); }
    assert Rotated(data, 3, 3)[1] == data[3] by { RotatedAtIndex(data, 3, 3, 1, 0, 1, 3); }
    assert Rotated(data, 3, 3)[2] == data[0] by { RotatedAtIndex(data, 3, 3, 0, 0, 2, 0); }
    assert Rotated(data, 3, 3)[3] == data[7] by { RotatedAtIndex(data, 3, 3, 2, 1, 3, 7); }
    assert Rotated(data, 3, 3)[4] == data[4] by { RotatedAtIndex(data, 3, 3, 1, 1, 4, 4); }
    assert Rotated(data, 3, 3)[5] == data[1] by { RotatedAtIndex(data, 3, 3, 0, 1, 5, 1); }
    assert Rotated(data, 3, 3)[6] == data[8] by { RotatedAtIndex(data, 3, 3, 2, 2, 6, 8); }
    assert Rotated(data, 3, 3)[7] == data[5] by { RotatedAtIndex(data, 3, 3, 1, 2, 7, 5); }
    assert Rotated(data, 3, 3)[8] == data[2] by { RotatedAtIndex(data, 3, 3, 0, 2, 8, 2); }
  }

  /** The 3x3 case: the loop body rotates 1..9 into 7,4,1,8,5,2,9,6,3, yet `decode` leaves a square frame alone. */
  lemma SquareFrameExample(data: seq<byte>)
    requires data == [1, 2, 3, 4, 5, 6, 7, 8, 9]
    ensures Rotated(data, 3, 3) == [7, 4, 1, 8, 5, 2, 9, 6, 3]
    ensures Normalize(data, 3, 3) == Some(data)
  {
    NormalizeGuard(data, 3, 3);
    ThreeByThree(data);
    ExampleBuffer(Rotated(data, 3, 3));
  }

  lemma ExampleBuffer(r: seq<byte>)
    requires |r| == 9
    requires r[0] == 7 && r[1] == 4 && r[2] == 1 && r[3] == 8 && r[4] == 5
    requires r[5] == 2 && r[6] == 9 && r[7] == 6 && r[8] == 3
    ensures r == [7, 4, 1, 8, 5, 2, 9, 6, 3]
  {
  }
}

=== FILE: settings.dfy ===
/**
  `CaptureActivity.bundleSetting` and the detector gate of `onResume`: the
  caller's optional settings bundle is read with a default for every key,
  the orientation-mode byte picks the requested screen orientation, and the
  flashlight-mode byte decides whether an ambient-light manager is created.
 */
module Settings {
  import opened Common

  const KEY_NEED_BEEP := "NEED_BEEP"
  const KEY_NEED_VIBRATION := "NEED_VIBRATION"
  const KEY_NEED_EXPOSURE := "NEED_EXPOSURE"
  const KEY_FLASHLIGHT_MODE := "FLASHLIGHT_MODE"
  const KEY_ORIENTATION_MODE := "ORIENTATION_MODE"
  const KEY_SCAN_AREA_FULL_SCREEN := "SCAN_AREA_FULL_SCREEN"
  const KEY_NEED_SCAN_HINT_TEXT := "KEY_NEED_SCAN_HINT_TEXT"

  /** Every key `bundleSetting` reads. */
  const Keys: set<string> :=
    {KEY_NEED_BEEP, KEY_NEED_VIBRATION, KEY_NEED_EXPOSURE, KEY_FLASHLIGHT_MODE,
     KEY_ORIENTATION_MODE, KEY_SCAN_AREA_FULL_SCREEN, KEY_NEED_SCAN_HINT_TEXT}

  const VALUE_FLASHLIGHT_AUTO: byte := 2
  const VALUE_FLASHLIGHT_ON: byte := 1
  const VALUE_FLASHLIGHT_OFF: byte := 0
  const VALUE_ORIENTATION_AUTO: byte := 2
  const VALUE_ORIENTATION_LANDSCAPE: byte := 1
  const VALUE_ORIENTATION_PORTRAIT: byte := 0

  /** A value stored in an Android `Bundle`; only bytes and booleans are read here. */
  datatype BundleValue = ByteValue(b: byte) | BoolValue(v: bool) | OtherValue

  type Bundle = map<string, BundleValue>

  /** `Bundle.getByte(key, default)`: the stored byte, or the default when absent or not a byte. */
  function GetByte(bundle: Bundle, key: string, default: byte): byte {
    if key in bundle && bundle[key].ByteValue? then bundle[key].b else default
  }

  /** `Bundle.getBoolean(key, default)`: the stored boolean, or the default when absent or not a boolean. */
  function GetBoolean(bundle: Bundle, key: string, default: bool): bool {
    if key in bundle && bundle[key].BoolValue? then bundle[key].v else default
  }

  /** The activity's settings fields. */
  datatype Options = Options(
    flashlightMode: byte,
    orientationMode: byte,
    needBeep: bool,
    needVibration: bool,
    needExposure: bool,
    needFullScreen: bool,
    needScanHintText: bool)

  /** `ActivityInfo.SCREEN_ORIENTATION_*` values the activity requests. */
  datatype RequestedOrientation = Landscape | Portrait | Sensor

  /** What `bundleSetting` decides: the settings, the requested orientation, and whether an ambient-light manager is created. */
  datatype Startup = Startup(options: Options, requested: RequestedOrientation, ambientLight: bool)

  /** The settings used when the bundle, or a key in it, is missing. */
  const Defaults := Options(VALUE_FLASHLIGHT_OFF, VALUE_ORIENTATION_PORTRAIT, true, true, false, false, false)

  /** The `switch (orientationMode)` of `bundleSetting`. */
  function RequestedFor(orientationMode: byte): (r: RequestedOrientation)
    ensures r == Landscape <==> orientationMode == VALUE_ORIENTATION_LANDSCAPE
    ensures r == Portrait <==> orientationMode == VALUE_ORIENTATION_PORTRAIT
    ensures r == Sensor <==> orientationMode != VALUE_ORIENTATION_LANDSCAPE && orientationMode != VALUE_ORIENTATION_PORTRAIT
  {
    if orientationMode == VALUE_ORIENTATION_LANDSCAPE then Landscape
    else if orientationMode == VALUE_ORIENTATION_PORTRAIT then Portrait
    else Sensor
  }

  /** The bundle `bundleSetting` reads from: a null bundle reads like an empty one. */
  function Effective(bundle: Option<Bundle>): Bundle {
    if bundle.Some? then bundle.value else map[]
  }

  /** `key` holds a byte in `b`. */
  predicate HasByte(b: Bundle, key: string) {
    key in b && b[key].ByteValue?
  }

  /** `key` holds a boolean in `b`. */
  predicate HasBool(b: Bundle, key: string) {
    key in b && b[key].BoolValue?
  }

  /**
    `bundleSetting`: a field whose key holds a value of its type takes that
    value, every other field keeps its entry in `Defaults`; the orientation
    mode picks the requested orientation, and only automatic flashlight mode
    creates the ambient-light manager.
   */
  function BundleSetting(bundle: Option<Bundle>): (r: Startup)
    ensures var b := Effective(bundle);
      (HasByte(b, KEY_FLASHLIGHT_MODE) ==> r.options.flashlightMode == b[KEY_FLASHLIGHT_MODE].b) &&
      (HasByte(b, KEY_ORIENTATION_MODE) ==> r.options.orientationMode == b[KEY_ORIENTATION_MODE].b) &&
      (HasBool(b, KEY_NEED_BEEP) ==> r.options.needBeep == b[KEY_NEED_BEEP].v) &&
      (HasBool(b, KEY_NEED_VIBRATION) ==> r.options.needVibration == b[KEY_NEED_VIBRATION].v) &&
      (HasBool(b, KEY_NEED_EXPOSURE) ==> r.options.needExposure == b[KEY_NEED_EXPOSURE].v) &&
      (HasBool(b, KEY_SCAN_AREA_FULL_SCREEN) ==> r.options.needFullScreen == b[KEY_SCAN_AREA_FULL_SCREEN].v) &&
      (HasBool(b, KEY_NEED_SCAN_HINT_TEXT) ==> r.options.needScanHintText == b[KEY_NEED_SCAN_HINT_TEXT].v)
    ensures var b := Effective(bundle);
      (!HasByte(b, KEY_FLASHLIGHT_MODE) ==> r.options.flashlightMode == Defaults.flashlightMode) &&
      (!HasByte(b, KEY_ORIENTATION_MODE) ==> r.options.orientationMode == Defaults.orientationMode) &&
      (!HasBool(b, KEY_NEED_BEEP) ==> r.options.needBeep == Defaults.needBeep) &&
      (!HasBool(b, KEY_NEED_VIBRATION) ==> r.options.needVibration == Defaults.needVibration) &&
      (!HasBool(b, KEY_NEED_EXPOSURE) ==> r.options.needExposure == Defaults.needExposure) &&
      (!HasBool(b, KEY_SCAN_AREA_FULL_SCREEN) ==> r.options.needFullScreen == Defaults.needFullScreen) &&
      (!HasBool(b, KEY_NEED_SCAN_HINT_TEXT) ==> r.options.needScanHintText == Defaults.needScanHintText)
    ensures r.ambientLight <==> r.options.flashlightMode == VALUE_FLASHLIGHT_AUTO
    ensures r.requested == RequestedFor(r.options.orientationMode)
  {
    var b := Effective(bundle);
    var options := Options(
      GetByte(b, KEY_FLASHLIGHT_MODE, VALUE_FLASHLIGHT_OFF),
      GetByte(b, KEY_ORIENTATION_MODE, VALUE_ORIENTATION_PORTRAIT),
      GetBoolean(b, KEY_NEED_BEEP, true),
      GetBoolean(b, KEY_NEED_VIBRATION, true),
      GetBoolean(b, KEY_NEED_EXPOSURE, false),
      GetBoolean(b, KEY_SCAN_AREA_FULL_SCREEN, false),
      GetBoolean(b, KEY_NEED_SCAN_HINT_TEXT, false));
    Startup(options, RequestedFor(options.orientationMode), options.flashlightMode == VALUE_FLASHLIGHT_AUTO)
  }

  /** The bundle a caller builds by putting every field of `o` under its key. */
  function Put(o: Options): Bundle {
    map[KEY_FLASHLIGHT_MODE := ByteValue(o.flashlightMode),
        KEY_ORIENTATION_MODE := ByteValue(o.orientationMode),
        KEY_NEED_BEEP := BoolValue(o.needBeep),
        KEY_NEED_VIBRATION := BoolValue(o.needVibration),
        KEY_NEED_EXPOSURE := BoolValue(o.needExposure),
        KEY_SCAN_AREA_FULL_SCREEN := BoolValue(o.needFullScreen),
        KEY_NEED_SCAN_HINT_TEXT := BoolValue(o.needScanHintText)]
  }

  /**
    Every setting a caller puts in the bundle is the one the activity uses:
    the seven keys are distinct, so no key shadows another, and reading back
    gives exactly the options that were put.
   */
  lemma BundleRoundTrip(o: Options)
    ensures BundleSetting(Some(Put(o))) ==
      Startup(o, RequestedFor(o.orientationMode), o.flashlightMode == VALUE_FLASHLIGHT_AUTO)
  {
  }

  /** Entries under keys `bundleSetting` does not read change nothing. */
  lemma OnlyKeysMatter(b1: Bundle, b2: Bundle)
    requires forall k :: k in Keys ==> (k in b1 <==> k in b2)
    requires forall k :: k in Keys && k in b1 && k in b2 ==> b1[k] == b2[k]
    ensures BundleSetting(Some(b1)) == BundleSetting(Some(b2))
  {
  }

  /** `onResume` enables the orientation detector only in automatic orientation mode. */
  function DetectorEnabled(options: Options): bool {
    options.orientationMode == VALUE_ORIENTATION_AUTO
  }

  /**
    A missing bundle, or one without any of the keys, yields flashlight off,
    portrait, beep and vibration on, exposure, full-screen scan area and hint
    text off; portrait is requested, no ambient-light manager is created and
    the orientation detector stays disabled.
   */
  lemma DefaultsWhenMissing(bundle: Option<Bundle>)
    requires bundle.None? || bundle.value.Keys !! Keys
    ensures BundleSetting(bundle) == Startup(Defaults, Portrait, false)
    ensures !DetectorEnabled(BundleSetting(bundle).options)
  {
  }

  /**
    Automatic orientation mode both enables the detector and requests sensor
    orientation; the fixed modes request their own orientation with the
    detector off; any unlisted mode requests sensor orientation, but with
    the detector off.
   */
  lemma AutoModeUsesSensor(bundle: Option<Bundle>)
    ensures DetectorEnabled(BundleSetting(bundle).options) ==> BundleSetting(bundle).requested == Sensor
    ensures BundleSetting(bundle).options.orientationMode == VALUE_ORIENTATION_LANDSCAPE ==>
      BundleSetting(bundle).requested == Landscape && !DetectorEnabled(BundleSetting(bundle).options)
    ensures BundleSetting(bundle).options.orientationMode == VALUE_ORIENTATION_PORTRAIT ==>
      BundleSetting(bundle).requested == Portrait && !DetectorEnabled(BundleSetting(bundle).options)
    ensures !(0 <= BundleSetting(bundle).options.orientationMode <= 2) ==>
      BundleSetting(bundle).requested == Sensor && !DetectorEnabled(BundleSetting(bundle).options)
  {
  }
}
